=== FILE: README.md ===
# Subtitle stitching and step-file naming, modelled in Dafny

This project models two parts of a text-to-speech and subtitle pipeline.

- **Building one subtitle track from many clips (`app.py`).** The audio archive is split into `.mp3` clips. Each clip is transcribed on its own, so its SubRip entries are timed from the start of that clip.
  - `generate_subtitle_only` takes the clips in file-name order. It moves every entry later by a running millisecond offset and renumbers the entries from a running index. After each clip with entries, the offset becomes the shifted end of that clip's last entry. The combined track is then rendered as SubRip text.
  - `generate_subtitle`, as written, never reaches its subtitle code. Its first progress report (app.py:408) calls a `progress` that is not defined in it, so every request ends with "字幕生成過程中出錯: name 'progress' is not defined" (see Findings). The model also gives what lines 418-446 would do without that call: keep the rescaled text of every transcribed clip, in order, and join the texts with a blank line.
- **Naming of step files (`modules/file_manager.py`).** A step's file lives at `temp/{identifier}_{step}_{file_type}`. The newest file of a step is the lexicographically greatest listed name that contains `_{step}_{file_type}`. The session identifier is read back as the part of the base name before its first `_`.

Files:

- `options.dfy`: the `Option` type used for Python's `None`.
- `numerals.dfy`: decimal digit strings and zero padding.
- `time_codec.dfy`: the `HH:MM:SS,mmm` timestamp codec and its round trip.
- `lex.dfy`: Python's string order.
- `srt_track.dfy`: entries, cues and SubRip rendering.
- `audio_files.dfy`: clip selection and sorting.
- `stitching.dfy`: `generate_subtitle_only`.
- `collecting.dfy`: `generate_subtitle` as written, and up to the combined text as intended.
- `file_manager.dfy`: `FileManager`.

Stitching has two parts. `StitchAll` is a left fold over the clips and serves as the reference definition. The method `StitchSegments` is the source's nested loop, and it is proved equal to `StitchAll`. The properties are proved as lemmas about `StitchAll`. `get_latest_file` follows the same pattern: the method `GetLatestFile` is proved against the function `LatestMatch`.

How the source's other code is represented:

- `transcribe`, `parse_srt` and `correct_timestamps_proportionally` come from `modules/srt_generator.py`, which is not part of this model. Their results for each clip are given as inputs: the `srt`, `entries` and `rescaled` fields of `Clip`.
- An empty `entries` list covers two cases: the transcription was empty, or nothing could be parsed from it.
- `ms_to_time` and `time_to_ms` are modelled as the SubRip codec. Hours are padded to at least two digits, as pysrt's `SubRipTime` does for the blocks at app.py:1190-1192.
- The stitching loop assumes that converting a timestamp to text and back is exact. This is proved for the model (`TimestampRoundTrip`).
- A timestamp is a natural number of milliseconds.

Points where the code's behaviour is easy to misread:

- `generate_subtitle_only` does not rescale clips to their real duration. It only shifts and renumbers them.
- There are three different failures. With no `.mp3` clip, the result is "未找到任何MP3音頻文件". When the listing also held a name not ending in `.mp3`, the clean-up removes only the `.mp3` files, so `os.rmdir` fails on a non-empty directory and the outer `except` reports that error. Otherwise, when no clip yields an entry, the result is "字幕生成失敗：未能從音頻中提取文字".
- The next offset is the end of the clip's last entry, not the latest end in the clip.

## Model

| member | source | states |
|---|---|---|
| `Numerals.Decimal` | app.py:257 | an index prints as a canonical decimal that reads back as the index and has no leading zero |
| `Numerals.DecimalCanonical` | app.py:257 | the only printed number that starts with `0` is `0` itself |
| `TimeCodec.FormatTimestamp` | app.py:243-244 | a timestamp is written with `:` `:` `,` at the fixed SubRip positions from the end |
| `TimeCodec.TimestampRoundTrip` | app.py:240-244 | converting milliseconds to text and back gives the same milliseconds, which the shifting loop relies on |
| `TimeCodec.ParseTimestamp` | app.py:240-241 | this model's reading of `time_to_ms`: text is accepted only with `:`, `:`, `,` at the fixed SubRip positions from the end |
| `TimeCodec.ParseFields` | app.py:240-241 | every accepted timestamp has all-digit fields, minutes and seconds below 60, and hours, minutes, seconds and milliseconds can each be read back from the millisecond count |
| `TimeCodec.RejectsOutOfRangeFields` | app.py:240-241 | a choice of this model's codec, since the real `time_to_ms` is not shown: minutes or seconds of 60 are rejected, not wrapped; `00:00:02,000` reads as 2000 ms |
| `AudioFiles.EndsWithMp3` | app.py:212 | `f.endswith('.mp3')`: every name made of a stem and `.mp3` passes the test, and every name that passes is such a stem followed by `.mp3` |
| `AudioFiles.Mp3Clips` | app.py:212 | a clip is kept exactly when it is listed and its name ends in `.mp3` |
| `AudioFiles.Mp3ClipsCount` | app.py:212 | every `.mp3` clip is kept as often as it is listed, and no other clip is kept |
| `AudioFiles.Mp3ClipsAppend` | app.py:212 | the filter keeps listing order: filtering a concatenation concatenates the filtered parts |
| `Lex.LexLeIff` | app.py:213 | `LexLe` is Python's string order: `a` is a prefix of `b`, or at the first position where they differ `a` has the smaller character |
| `Lex.LexTotal` | modules/file_manager.py:43 | any two names are comparable, so `sorted` is well defined |
| `Lex.LexAntisymmetric` | modules/file_manager.py:43 | two names that are each at most the other are equal, so the greatest name is unique |
| `Lex.LexTransitive` | modules/file_manager.py:43 | the order is transitive |
| `AudioFiles.SortByName` | app.py:213 | the result is sorted by name in Python's string order and is a permutation of the input |
| `AudioFiles.Audio` | app.py:212-213 | the processed clips are the `.mp3` clips, each as often as it is listed, sorted by name |
| `AudioFiles.PathOrderIsNameOrder` | app.py:212-213 | sorting full paths under one directory orders them by file name |
| `AudioFiles.SegmentOf` | app.py:228-235 | a clip contributes no entries exactly when its transcription is empty or nothing was parsed from it; otherwise it contributes exactly its parsed entries |
| `SrtTrack.BlockFields` | app.py:257-259 | one cue's block is its index line, its `start --> end` line and its text, ended by a blank line; the index and both times read back as the cue's own |
| `SrtTrack.RenderTrack` | app.py:255-259 | the accumulated text is the blocks of all cues in order: index line, `start --> end` line, text, blank line (the same block shape as app.py:1190-1192) |
| `SrtTrack.RenderEmptyIff` | app.py:270-271 | the rendered text is empty exactly when there are no cues |
| `SrtTrack.RenderAppend` | app.py:255-259 | rendering a concatenation gives the concatenation of the renderings |
| `Stitching.StepGrows` | app.py:226-252 | one clip's turn appends one entry per parsed entry after the earlier ones, advances the index by that many and never lowers the offset |
| `Stitching.StitchSegments` | app.py:222-252 | the loop's final entries, offset and index equal the reference fold `StitchAll` over the clips |
| `Stitching.StitchNumbering` | app.py:223-248 | the output entries carry indices exactly 1..N in append order, and the running index is N+1 |
| `Stitching.StitchKeepsEntries` | app.py:238-248 | the output has one entry per input entry, in clip order and in order within each clip; each keeps its text, and its start and end move by the same non-negative offset |
| `Stitching.StitchShiftExact` | app.py:238-248 | entry `j` of clip `i` is output at position (entries of earlier clips) + `j`, numbered one more than that position, with its start and end moved by exactly the sum of the earlier clips' last relative ends, and its text unchanged |
| `Stitching.StitchOffset` | app.py:250-252 | the final offset is the sum, over non-empty clips, of each clip's last entry's relative end |
| `Stitching.StitchSkipsEmpty` | app.py:229-235 | dropping every clip without entries changes neither the entries, the offset nor the index |
| `Stitching.StitchSegmentAnchored` | app.py:238-252 | an empty clip leaves the state unchanged; a non-empty clip appends after the earlier entries, its entries start at or after the previous offset, and the new offset is the previous offset plus its last entry's relative end |
| `Stitching.StitchMonotone` | app.py:240-252 | if each clip's entries are start-ordered and end no earlier than they start, the combined track is start-ordered, and every entry starts no later than it ends and no later than the running offset |
| `Stitching.HelloWorld` | app.py:238-252 | `[0-2000 hello]` then `[0-1500 world]` gives `1: 0-2000 hello`, `2: 2000-3500 world` |
| `Stitching.StitchEmptyIff` | app.py:229-248 | the combined track is empty exactly when every clip is empty |
| `Stitching.GenerateSubtitleOnly` | app.py:212-276 | no `.mp3` clip gives the no-MP3 failure; a listing that also held another name fails with the `os.rmdir` error behind the outer `except`'s prefix; otherwise the result fails with the no-text message exactly when no clip yields an entry, and on success it is the rendering of the stitched track |
| `Collecting.KeptAppend` | app.py:432-440 | the kept pieces of two runs of clips are the pieces of the first followed by those of the second |
| `Collecting.KeptOne` | app.py:435-440 | one clip contributes its rescaled text exactly when its transcription is non-empty, and nothing otherwise |
| `Collecting.KeptCount` | app.py:432-440 | there is one kept piece per transcribed clip; no piece is kept exactly when no clip was transcribed |
| `Collecting.JoinEmptyIff` | app.py:443-446 | the joined text is empty exactly when there is no piece or the only piece is empty |
| `Collecting.JoinEnds` | app.py:443 | the joined text starts with the first piece and ends with the last |
| `Collecting.JoinAppend` | app.py:443 | joining two non-empty lists puts exactly one blank-line separator between the two halves |
| `Collecting.GenerateSubtitleAsWritten` | app.py:405-408 | as written, every request fails at the first `progress` call, whatever the clips, with the outer `except`'s error prefix and a message that is neither of the collecting code's own |
| `Collecting.ProgressCallHidesResult` | app.py:408-446 | for one `.mp3` clip transcribed as `x`, the collected text is `x`, yet the function as written fails |
| `Collecting.GenerateSubtitle` | app.py:418-446 | corrected: what the lines after app.py:408 give when that call does not raise. No `.mp3` clip gives the no-MP3 failure; otherwise it fails exactly when the kept pieces are none or one empty piece, and on success it returns the kept pieces joined with `"\n\n"` |
| `Lex.LexDigitsNumeric` | modules/file_manager.py:42-43 | on digit strings of equal length, string order is numeric order |
| `FileNaming.ContainsAt` | modules/file_manager.py:36 | `Contains`, Python's `in` on strings, holds exactly when the pattern occurs at some position |
| `FileNaming.PathJoin` | modules/file_manager.py:25 | `os.path.join`: an absolute name replaces the directory; an empty directory or one ending in `/` is simply followed by the name; otherwise a `/` goes between them |
| `FileNaming.JoinKeepsBasename` | modules/file_manager.py:44 | joining a directory in front of a name never changes its base name |
| `FileNaming.Basename` | modules/file_manager.py:52 | the base name contains no `/`, is a suffix of the path, and is either the whole path or preceded by a `/` |
| `FileNaming.FirstField` | modules/file_manager.py:54 | the first field contains no `_`, is a prefix, and is either the whole string or followed by a `_` |
| `FileNaming.Matches` | modules/file_manager.py:34-37 | a name is collected exactly when it is listed and contains the pattern |
| `FileNaming.MaxLex` | modules/file_manager.py:43 | the last element of the sorted list is a member that is greater than or equal to every member |
| `FileNaming.LatestMatch` | modules/file_manager.py:34-44 | the result is `None` exactly when no listed name contains the pattern; otherwise it is a matching listed name, greater than or equal to every match |
| `FileNaming.FileManager.constructor` | modules/file_manager.py:5-8 | the manager's directory is `temp` |
| `FileNaming.FileManager.GetFilePath` | modules/file_manager.py:24-25 | for a non-empty directory without a trailing `/` and an identifier without `/`, the path is `dir/{identifier}_{step}_{file_type}`; when no part contains `/`, its base name is exactly that file name |
| `FileNaming.FileManager.GetLatestFile` | modules/file_manager.py:27-44 | a missing directory gives `None`; otherwise the result is `None` exactly when there is no match, else it is `temp_dir` joined with the greatest match |
| `FileNaming.FileManager.GetIdentifierFromFile` | modules/file_manager.py:50-54 | an empty path gives `None`; otherwise the result is the base name's prefix up to its first `_`, and that prefix contains no `_` |
| `FileNaming.GeneratedNameMatches` | modules/file_manager.py:24-36 | every generated file name contains the pattern searched for its step and type |
| `FileNaming.GeneratedNameConsidered` | modules/file_manager.py:35-44 | if a generated name is listed, a file is found, and it is no smaller than that name |
| `FileNaming.LatestHasGreatestIdentifier` | modules/file_manager.py:42-43 | when the matches are the step's files for equal-length digit identifiers, the chosen file has the numerically greatest identifier |
| `FileNaming.IdentifierRoundTrip` | modules/file_manager.py:46-54 | for an identifier without `_` or `/`, and a step and file type without `/`, reading the identifier back from a generated path gives that identifier |
| `FileNaming.StampIdentifierTruncated` | modules/file_manager.py:50-54 | for an identifier of the `create_identifier` shape, reading it back from a generated path gives only the date part |
| `FileNaming.StampIdentifierExample` | modules/file_manager.py:10-25 | the archive path of session `20250512_152332` is read back as session `20250512` |
| `FileNaming.GetStampFromFile` | modules/file_manager.py:46-54 | corrected reading: `None` for an empty path, else a prefix of the base name |
| `FileNaming.StampRoundTrip` | modules/file_manager.py:12-25 | the corrected reading recovers every identifier of the `create_identifier` shape from any generated path |

## Left out

- The input checks before the archive is read are left out: missing archive, missing transcript file, blank API key, missing identifier (app.py:179-186, app.py:393-403). They test user interface inputs and the file system.
- Unpacking, writing and deleting files is left out (app.py:192-209, app.py:262-268, app.py:411-415, app.py:449-483), and so is `os.makedirs` in `FileManager.__init__`. These are I/O. The deletions themselves are left out; the `os.rmdir` failure at app.py:268 is modelled, see the `Stitching.GenerateSubtitleOnly` line below.
- Exceptions raised by the external services are not modelled. In the source they are caught by the outer `except` and returned as a message (app.py:275-276, app.py:489-490).
- `modules/srt_generator.py` and `modules/subtitle_corrector.py` are not part of this model. Transcription, parsing, duration queries, proportional rescaling and LLM-assisted correction appear only through the per-clip inputs of `Clip`.
- The correction half of `generate_subtitle` (app.py:452-487) is left out. It calls `SubtitleCorrector`, whose code is not part of this model.
- The `progress` calls in `generate_subtitle` raise `NameError`; `GenerateSubtitleAsWritten` models that (see Findings). The progress reports of `auto_process_all` and of the batch interface are left out; they are user interface and floating point.
- `create_identifier` reads the wall clock. Only the shape of its result is modelled, by `StampShaped`, for four-digit years.
- `auto_process_all`, the user interface wiring, the video preview and batch progress are left out. The first calls step functions with mismatched arguments; the others are user interface, subprocesses and floating point.
- `modules/openai_patch.py` is left out. It patches a third-party library at import time.
- The model uses values where the source updates `entry` dicts in place. The source reads the new offset from the last entry after that entry was shifted (app.py:251-252). The model reads the end of the last cue appended, which is the same value. Aliasing among the dicts is otherwise not modelled.
- `TimeCodec.ParseTimestamp` is this model's SubRip reader. The real `time_to_ms` in `modules/srt_generator.py` is not part of this model; it may wrap or raise on minutes or seconds of 60 or more, where this reader gives `None`. The model's entries carry milliseconds, so stitching never reads text; the one reading of text the model relies on is the offset at app.py:252, of a timestamp just written by `FormatTimestamp`, which round-trips exactly.
- `Stitching.GenerateSubtitleOnly`: the text of the `OSError` raised by `os.rmdir` comes from the operating system and is a parameter, `rmdirError`. The model takes every listed `.mp3` name to be a removable file, so `os.remove` never fails. Files left in the directory by earlier runs are counted as part of the listing.
- `FileNaming.FileManager.GetLatestFile` does not model `sorted` as a full sort. It models only the element `sorted(files)[-1]` picks, the greatest. Under a total order that element is unique.
- `FileNaming.FileManager.GetIdentifierFromFile` takes a string. Python's `None` argument is covered by the empty string, which is the other value `not filepath` rejects.

## Findings

| source | as written | input that shows it | evidently intended | confidence | as-written member | corrected member |
|---|---|---|---|---|---|---|
| modules/file_manager.py:54 (and the same rule inline at app.py:406) | `filename.split('_')[0]` returns the text before the first `_`, but identifiers made by `create_identifier` (`%Y%m%d_%H%M%S`, line 12) contain a `_` | `temp/20250512_152332_step3_audio.zip`, the archive path for session `20250512_152332`, is read back as `20250512` | the whole identifier `20250512_152332`, the example given in the docstring at line 18 and the `identifier_step_filetype` layout noted at line 53 | high; not executed | `FileNaming.StampIdentifierTruncated` | `FileNaming.StampRoundTrip` |
| app.py:408 (and app.py:423) | `generate_subtitle` calls `progress(0.1, ...)`, but `progress` is neither a parameter nor a name in scope there, so `NameError` is raised and the outer `except` (app.py:489-490) turns it into an error message | any request that gets past the input checks, e.g. an archive with one `.mp3` clip transcribed as `x` | report progress through a `gr.Progress` parameter and go on to collect and join the transcriptions (lines 418-446) | high; not executed | `Collecting.ProgressCallHidesResult` | `Collecting.GenerateSubtitle` |

=== FILE: audio_files.dfy ===
/** The audio clips of one request and the order they are processed in: the
    `.mp3` files of the extracted archive, sorted by file name
    (app.py:212-213 and app.py:418). */
module AudioFiles {
  import opened Lex
  import opened SrtTrack

  /** One clip of the archive with what the external services return for it:
      `srt` is the transcription text (`transcribe`), `entries` what
      `parse_srt` reads from it and `rescaled` what
      `correct_timestamps_proportionally` makes of it. */
  datatype Clip = Clip(name: string, srt: string, entries: seq<Entry>, rescaled: string)

  const Mp3Suffix := ".mp3"

  /** `f.endswith('.mp3')`. */
  predicate IsMp3(name: string) {
    |name| >= |Mp3Suffix| && name[|name| - |Mp3Suffix|..] == Mp3Suffix
  }

  /** `endswith('.mp3')` holds of every name made of a stem and the suffix,
      and only of those. */
  lemma EndsWithMp3(name: string)
    ensures forall stem :: IsMp3(stem + Mp3Suffix)
    ensures IsMp3(name) ==> name == name[..|name| - |Mp3Suffix|] + Mp3Suffix
  {
    forall stem ensures IsMp3(stem + Mp3Suffix) {
      var n := stem + Mp3Suffix;
      assert n[|n| - |Mp3Suffix|..] == Mp3Suffix;
    }
  }

  /** The list comprehension's filter: the `.mp3` clips, in listing order. */
  function Mp3Clips(clips: seq<Clip>): (r: seq<Clip>)
    ensures forall c :: c in r <==> c in clips && IsMp3(c.name)
    ensures |r| <= |clips|
  {
    if clips == [] then []
    else
      var rest := Mp3Clips(clips[1..]);
      assert clips == [clips[0]] + clips[1..];
      if IsMp3(clips[0].name) then [clips[0]] + rest else rest
  }

  /** The filter keeps every `.mp3` clip as often as it is listed. */
  lemma {:induction false} Mp3ClipsCount(clips: seq<Clip>)
    ensures forall c :: multiset(Mp3Clips(clips))[c] == if IsMp3(c.name) then multiset(clips)[c] else 0
  {
    if clips != [] {
      Mp3ClipsCount(clips[1..]);
      assert clips == [clips[0]] + clips[1..];
      assert multiset(clips) == multiset{clips[0]} + multiset(clips[1..]);
    }
  }

  /** The filter keeps listing order: filtering a concatenation is the
      concatenation of the filtered parts. */
  lemma {:induction false} Mp3ClipsAppend(a: seq<Clip>, b: seq<Clip>)
    ensures Mp3Clips(a + b) == Mp3Clips(a) + Mp3Clips(b)
  {
    if a != [] {
      var head := if IsMp3(a[0].name) then [a[0]] else [];
      var x, y := Mp3Clips(a[1..]), Mp3Clips(b);
      assert Mp3Clips(a + b) == head + Mp3Clips(a[1..] + b) by {
        assert (a + b)[0] == a[0];
        assert (a + b)[1..] == a[1..] + b;
      }
      Mp3ClipsAppend(a[1..], b);
      ConcatAssoc(head, x, y);
      assert Mp3Clips(a) == head + x;
    } else {
      assert a + b == b;
    }
  }

  lemma ConcatAssoc(p: seq<Clip>, q: seq<Clip>, r: seq<Clip>)
    ensures p + (q + r) == (p + q) + r
  {
  }

  predicate SortedByName(s: seq<Clip>) {
    forall i, j :: 0 <= i < j < |s| ==> LexLe(s[i].name, s[j].name)
  }

  /** Insertion of one clip into a name-sorted list. */
  function Insert(c: Clip, s: seq<Clip>): (r: seq<Clip>)
    requires SortedByName(s)
    ensures SortedByName(r)
    ensures multiset(r) == multiset(s) + multiset{c}
  {
    if s == [] then [c]
    else if LexLe(c.name, s[0].name) then
      forall j | 0 <= j < |s| ensures LexLe(c.name, s[j].name) {
        if j > 0 {
          LexTransitive(c.name, s[0].name, s[j].name);
        }
      }
      SortedCons(c, s);
      [c] + s
    else
      var tail := Insert(c, s[1..]);
      assert s == [s[0]] + s[1..];
      LexTotal(c.name, s[0].name);
      forall j | 0 <= j < |tail| ensures LexLe(s[0].name, tail[j].name) {
        LowerBoundKept(c, s, tail, j);
      }
      SortedCons(s[0], tail);
      [s[0]] + tail
  }

  lemma SortedCons(x: Clip, t: seq<Clip>)
    requires SortedByName(t)
    requires forall j :: 0 <= j < |t| ==> LexLe(x.name, t[j].name)
    ensures SortedByName([x] + t)
  {
    var r := [x] + t;
    forall i, j | 0 <= i < j < |r| ensures LexLe(r[i].name, r[j].name) {
      if i > 0 {
        assert r[i] == t[i - 1] && r[j] == t[j - 1];
      }
    }
  }

  /** Every element of the insertion result is the inserted clip or one of
      the tail's, so the head of a sorted list bounds it from below. */
  lemma LowerBoundKept(c: Clip, s: seq<Clip>, tail: seq<Clip>, j: nat)
    requires SortedByName(s) && |s| > 0 && LexLe(s[0].name, c.name)
    requires multiset(tail) == multiset(s[1..]) + multiset{c}
    requires j < |tail|
    ensures LexLe(s[0].name, tail[j].name)
  {
    assert tail[j] in multiset(tail);
    if tail[j] != c {
      assert tail[j] in multiset(s[1..]);
      var k :| 0 <= k < |s[1..]| && s[1..][k] == tail[j];
      assert s[k + 1] == tail[j];
    }
  }

  /** `list.sort()` on the file names: a sorted permutation of its input. */
  function SortByName(s: seq<Clip>): (r: seq<Clip>)
    ensures SortedByName(r)
    ensures multiset(r) == multiset(s)
  {
    if s == [] then []
    else
      assert s == [s[0]] + s[1..];
      Insert(s[0], SortByName(s[1..]))
  }

  /** The clips a request processes, in processing order. */
  function Audio(clips: seq<Clip>): (r: seq<Clip>)
    ensures SortedByName(r)
    ensures forall c :: c in r <==> c in clips && IsMp3(c.name)
    ensures forall c :: multiset(r)[c] == if IsMp3(c.name) then multiset(clips)[c] else 0
  {
    Mp3ClipsCount(clips);
    var r := SortByName(Mp3Clips(clips));
    assert forall c :: c in r <==> c in multiset(r);
    r
  }

  /** The list is sorted as full paths under the extraction directory; with
      that directory as a common prefix this is the order of the names. */
  lemma PathOrderIsNameOrder(dir: string, a: Clip, b: Clip)
    ensures LexLe(dir + "/" + a.name, dir + "/" + b.name) <==> LexLe(a.name, b.name)
  {
    assert dir + "/" + a.name == (dir + "/") + a.name;
    assert dir + "/" + b.name == (dir + "/") + b.name;
    LexCommonPrefix(dir + "/", a.name, b.name);
  }

  /** The entries a clip contributes: none when the transcription is empty
      (app.py:229-230), else what was parsed from it (app.py:233-235). */
  function SegmentOf(c: Clip): (s: seq<Entry>)
    ensures s == [] <==> c.srt == "" || c.entries == []
    ensures s != [] ==> s == c.entries
  {
    if c.srt == "" then [] else c.entries
  }

  function Segments(audio: seq<Clip>): seq<seq<Entry>>
  {
    seq(|audio|, i requires 0 <= i < |audio| => SegmentOf(audio[i]))
  }

  /** Every clip's segment is empty exactly when every clip contributes no
      entry. */
  lemma SegmentsEmptyIff(audio: seq<Clip>)
    ensures (forall c :: c in audio ==> SegmentOf(c) == []) <==>
      (forall i :: 0 <= i < |Segments(audio)| ==> Segments(audio)[i] == [])
  {
    var segs := Segments(audio);
    if forall i :: 0 <= i < |segs| ==> segs[i] == [] {
      forall c | c in audio ensures SegmentOf(c) == [] {
        var i :| 0 <= i < |audio| && audio[i] == c;
        assert segs[i] == SegmentOf(c);
      }
    }
  }
}

=== FILE: collecting.dfy ===
/** The transcription half of `generate_subtitle` (app.py:390-446). As
    written, the function fails at its first progress report (app.py:408);
    `GenerateSubtitleAsWritten` models that. `GenerateSubtitle` models what
    lines 418-446 do once that call no longer raises: every sorted `.mp3` clip
    with a non-empty transcription contributes its proportionally rescaled
    SubRip text, and the pieces are joined with a blank line. */
module Collecting {
  import opened AudioFiles
  import opened Stitching
  import opened SrtTrack

  const NoMp3InZipMessage := "未在ZIP文件中找到MP3音頻"
  const Separator := "\n\n"

  /** Python's `sep.join(parts)`. */
  function Join(parts: seq<string>, sep: string): string {
    if parts == [] then ""
    else if |parts| == 1 then parts[0]
    else Join(parts[..|parts| - 1], sep) + sep + parts[|parts| - 1]
  }

  /** The joined text starts with the first piece and ends with the last. */
  lemma {:induction false} JoinEnds(parts: seq<string>, sep: string)
    requires parts != []
    ensures parts[0] <= Join(parts, sep)
    ensures var r, last := Join(parts, sep), parts[|parts| - 1];
      |last| <= |r| && r[|r| - |last|..] == last
  {
    if |parts| > 1 {
      var init := parts[..|parts| - 1];
      JoinEnds(init, sep);
      var j := Join(init, sep);
      assert Join(parts, sep) == j + sep + parts[|parts| - 1];
      assert (j + sep + parts[|parts| - 1])[..|parts[0]|] == j[..|parts[0]|];
    }
  }

  /** The rescaled texts of the clips that were transcribed, in clip order. */
  function Kept(audio: seq<Clip>): seq<string> {
    if audio == [] then []
    else
      var last := audio[|audio| - 1];
      Kept(audio[..|audio| - 1]) + if last.srt != "" then [last.rescaled] else []
  }

  /** Which pieces are kept is decided clip by clip: the pieces of a
      concatenation are those of its parts, in order. */
  lemma {:induction false} KeptAppend(a: seq<Clip>, b: seq<Clip>)
    ensures Kept(a + b) == Kept(a) + Kept(b)
  {
    if b == [] {
      assert a + b == a;
    } else {
      var ab, init := a + b, b[..|b| - 1];
      assert ab[..|ab| - 1] == a + init;
      assert ab[|ab| - 1] == b[|b| - 1];
      KeptAppend(a, init);
    }
  }

  lemma TakeOneMore(s: seq<Clip>, i: nat)
    requires i < |s|
    ensures s[..i + 1] == s[..i] + [s[i]]
  {
  }

  /** A single clip contributes its rescaled text exactly when its
      transcription is non-empty. */
  lemma KeptOne(c: Clip)
    ensures Kept([c]) == if c.srt != "" then [c.rescaled] else []
  {
    assert [c][..0] == [];
  }

  /** Joining with a non-empty separator gives the empty string exactly when
      there is nothing to join or the only piece is itself empty. */
  lemma JoinEmptyIff(parts: seq<string>, sep: string)
    requires sep != ""
    ensures Join(parts, sep) == "" <==> parts == [] || parts == [""]
  {
    if |parts| > 1 {
      assert |Join(parts, sep)| >= |sep| > 0;
    }
  }

  /** Joining two non-empty lists puts exactly one separator between the two
      joined halves. */
  lemma {:induction false} JoinAppend(p: seq<string>, q: seq<string>, sep: string)
    requires p != [] && q != []
    ensures Join(p + q, sep) == Join(p, sep) + sep + Join(q, sep)
  {
    var pq := p + q;
    assert pq[..|pq| - 1] == p + q[..|q| - 1];
    assert pq[|pq| - 1] == q[|q| - 1];
    if |q| == 1 {
      assert q[..|q| - 1] == [];
      assert pq[..|pq| - 1] == p;
    } else {
      JoinAppend(p, q[..|q| - 1], sep);
    }
  }

  /** Exactly the transcribed clips contribute, one piece each, in order. */
  lemma {:induction false} KeptCount(audio: seq<Clip>)
    ensures |Kept(audio)| == |set i | 0 <= i < |audio| && audio[i].srt != ""|
    ensures Kept(audio) == [] <==> forall c :: c in audio ==> c.srt == ""
  {
    if audio != [] {
      var init, last := audio[..|audio| - 1], audio[|audio| - 1];
      KeptCount(init);
      var before := set i | 0 <= i < |init| && init[i].srt != "";
      var now := set i | 0 <= i < |audio| && audio[i].srt != "";
      if last.srt != "" {
        assert now == before + {|audio| - 1};
      } else {
        assert now == before;
      }
      assert forall c :: c in audio <==> c in init || c == last;
    }
  }

  /** The text of the NameError raised by the undefined `progress`. */
  const ProgressNameError := "name 'progress' is not defined"

  /** `generate_subtitle` as written, once its input checks pass
      (app.py:405-408, app.py:489-490): `progress` is neither a parameter nor
      defined in the module, so the call at app.py:408 raises, and the outer
      `except` reports it. The clips are never looked at: the request fails
      with neither of the messages the collecting code gives. */
  function GenerateSubtitleAsWritten(clips: seq<Clip>): (r: Outcome)
    ensures r.Failure? && |ErrorPrefix| <= |r.message| && r.message[..|ErrorPrefix|] == ErrorPrefix
    ensures r.message != NoMp3InZipMessage && r.message != NoTextMessage
  {
    var message := ErrorPrefix + ProgressNameError;
    assert |message| != |NoMp3InZipMessage| && |message| != |NoTextMessage|;
    Failure(message)
  }

  /** One `.mp3` clip transcribed as "x": the collected text is "x", so the
      corrected `GenerateSubtitle` succeeds with it, while the function as
      written fails. */
  lemma ProgressCallHidesResult()
    ensures var clips := [Clip("a.mp3", "x", [], "x")];
      && Audio(clips) == clips
      && Join(Kept(Audio(clips)), Separator) == "x"
      && GenerateSubtitleAsWritten(clips).Failure?
  {
    var c := Clip("a.mp3", "x", [], "x");
    var clips := [c];
    assert IsMp3(c.name) by {
      assert c.name[|c.name| - |Mp3Suffix|..] == ".mp3";
    }
    assert clips[1..] == [];
    assert Mp3Clips(clips) == clips;
    assert SortByName(clips) == Insert(c, SortByName([]));
    KeptOne(c);
  }

  /** `generate_subtitle` up to the combined text (app.py:418-446), as it would
      run if the progress call at app.py:408 did not raise: no clip is
      a failure; otherwise the transcribed clips' rescaled texts are collected
      in order and joined, and the result is a failure exactly when the joined
      text is empty. */
  method GenerateSubtitle(clips: seq<Clip>) returns (r: Outcome)
    ensures Audio(clips) == [] ==> r == Failure(NoMp3InZipMessage)
    ensures Audio(clips) != [] ==>
      (r.Failure? <==> Kept(Audio(clips)) == [] || Kept(Audio(clips)) == [""])
    ensures Audio(clips) != [] && r.Failure? ==> r.message == NoTextMessage
    ensures r.Success? ==> r.srt == Join(Kept(Audio(clips)), Separator)
  {
    var audio := Audio(clips);
    if audio == [] {
      return Failure(NoMp3InZipMessage);
    }
    var all: seq<string> := [];
    var i := 0;
    while i < |audio|
      invariant 0 <= i <= |audio|
      invariant all == Kept(audio[..i])
    {
      TakeOneMore(audio, i);
      KeptAppend(audio[..i], [audio[i]]);
      KeptOne(audio[i]);
      if audio[i].srt != "" {
        all := all + [audio[i].rescaled];
      }
      i := i + 1;
    }
    assert audio[..i] == audio;
    var combined := Join(all, Separator);
    JoinEmptyIff(all, Separator);
    if combined == "" {
      return Failure(NoTextMessage);
    }
    return Success(combined);
  }
}

=== FILE: file_manager.dfy ===
/** `FileManager` (modules/file_manager.py): where each pipeline step keeps
    its files, how the newest file of a step is found, and how the session
    identifier is read back from a file name. */
module FileNaming {
  import opened Options
  import opened Numerals
  import opened Lex

  /** Python's `pat in s` on strings: `pat` occurs somewhere in `s`. */
  predicate Contains(s: string, pat: string) {
    pat <= s || (s != [] && Contains(s[1..], pat))
  }

  /** `pat` occurs in `s` at position `i`. */
  predicate OccursAt(s: string, pat: string, i: int) {
    0 <= i <= |s| - |pat| && s[i..i + |pat|] == pat
  }

  /** `Contains` agrees with the definition by position. */
  lemma {:induction false} ContainsAt(s: string, pat: string)
    ensures Contains(s, pat) <==> exists i :: OccursAt(s, pat, i)
  {
    if pat <= s {
      assert OccursAt(s, pat, 0);
    } else if s != [] {
      ContainsAt(s[1..], pat);
      if exists i :: OccursAt(s, pat, i) {
        var i :| OccursAt(s, pat, i);
        assert i != 0;
        assert OccursAt(s[1..], pat, i - 1);
      }
      if Contains(s[1..], pat) {
        var i :| OccursAt(s[1..], pat, i);
        assert OccursAt(s, pat, i + 1);
      }
    } else {
      assert !OccursAt(s, pat, 0);
    }
  }

  lemma {:induction false} ContainsSuffix(x: string, pat: string)
    ensures Contains(x + pat, pat)
  {
    if x != [] {
      assert (x + pat)[1..] == x[1..] + pat;
      ContainsSuffix(x[1..], pat);
    }
  }

  /** `os.path.join(dir, name)` on POSIX: an absolute `name` replaces `dir`;
      otherwise a `/` is put between them unless `dir` is empty or already
      ends in one. */
  function PathJoin(dir: string, name: string): (p: string)
    ensures name != [] && name[0] == '/' ==> p == name
    ensures !(name != [] && name[0] == '/') && (dir == [] || dir[|dir| - 1] == '/') ==> p == dir + name
    ensures !(name != [] && name[0] == '/') && !(dir == [] || dir[|dir| - 1] == '/') ==> p == dir + "/" + name
  {
    if name != [] && name[0] == '/' then name
    else if dir == [] || dir[|dir| - 1] == '/' then dir + name
    else dir + "/" + name
  }

  /** `os.path.basename(path)`: what follows the last `/`. */
  function Basename(path: string): (b: string)
    ensures '/' !in b
    ensures |b| <= |path| && b == path[|path| - |b|..]
    ensures b == path || path[|path| - |b| - 1] == '/'
  {
    if path == [] || path[|path| - 1] == '/' then []
    else
      var init := Basename(path[..|path| - 1]);
      init + [path[|path| - 1]]
  }

  lemma {:induction false} BasenameAfterSlash(dir: string, name: string)
    requires '/' !in name
    requires dir == [] || dir[|dir| - 1] == '/'
    ensures Basename(dir + name) == name
  {
    if name == [] {
      assert dir + name == dir;
    } else {
      var p := dir + name;
      assert p[..|p| - 1] == dir + name[..|name| - 1];
      BasenameAfterSlash(dir, name[..|name| - 1]);
    }
  }

  /** Cutting `y` before a suffix `b` that is all of `y` or follows a `/`:
      what precedes `b` in `x + y` is empty or ends in `/` when `x` is. */
  lemma Regroup(x: string, y: string, b: string)
    requires x == [] || x[|x| - 1] == '/'
    requires |b| <= |y| && b == y[|y| - |b|..]
    requires b == y || y[|y| - |b| - 1] == '/'
    ensures x + y == (x + y[..|y| - |b|]) + b
    ensures var front := x + y[..|y| - |b|]; front == [] || front[|front| - 1] == '/'
  {
    var k := |y| - |b|;
    assert y == y[..k] + y[k..];
    var front := x + y[..k];
    if k > 0 {
      assert front[|front| - 1] == y[k - 1];
    } else {
      assert front == x;
    }
  }

  /** The base name ignores everything up to a final `/`. */
  lemma BasenameAppend(x: string, y: string)
    requires x == [] || x[|x| - 1] == '/'
    ensures Basename(x + y) == Basename(y)
  {
    var b := Basename(y);
    Regroup(x, y, b);
    BasenameAfterSlash(x + y[..|y| - |b|], b);
  }

  /** Joining a directory in front never changes the base name. */
  lemma JoinKeepsBasename(dir: string, name: string)
    ensures Basename(PathJoin(dir, name)) == Basename(name)
  {
    if !(name != [] && name[0] == '/') {
      if dir == [] || dir[|dir| - 1] == '/' {
        BasenameAppend(dir, name);
      } else {
        assert dir + "/" + name == (dir + "/") + name;
        BasenameAppend(dir + "/", name);
      }
    }
  }

  lemma FileNameBasename(dir: string, identifier: string, step: string, fileType: string)
    ensures '/' !in identifier && '/' !in step && '/' !in fileType ==>
      Basename(PathJoin(dir, FileName(identifier, step, fileType))) == FileName(identifier, step, fileType)
  {
    var name := FileName(identifier, step, fileType);
    if '/' !in identifier && '/' !in step && '/' !in fileType {
      assert '/' !in name by {
        assert name == identifier + "_" + step + "_" + fileType;
        forall i | 0 <= i < |name| ensures name[i] != '/' {
          if i < |identifier| {
            assert name[i] == identifier[i];
          } else if |identifier| < i < |identifier| + 1 + |step| {
            assert name[i] == step[i - |identifier| - 1];
          } else if i > |identifier| + 1 + |step| {
            assert name[i] == fileType[i - |identifier| - 2 - |step|];
          }
        }
      }
      if !(dir == [] || dir[|dir| - 1] == '/') {
        assert dir + "/" + name == (dir + "/") + name;
        BasenameAfterSlash(dir + "/", name);
      } else {
        BasenameAfterSlash(dir, name);
      }
    }
  }

  /** `s.split('_')[0]`: everything before the first `_`, or all of `s`. */
  function FirstField(s: string): (f: string)
    ensures '_' !in f
    ensures f <= s
    ensures f == s || s[|f|] == '_'
  {
    if s == [] || s[0] == '_' then [] else [s[0]] + FirstField(s[1..])
  }

  /** The file name of a step's file: `{identifier}_{step}_{file_type}`. */
  function FileName(identifier: string, step: string, fileType: string): string {
    identifier + "_" + step + "_" + fileType
  }

  /** What `get_latest_file` looks for in a file name: `_{step}_{file_type}`. */
  function Pattern(step: string, fileType: string): string {
    "_" + step + "_" + fileType
  }

  /** The loop of file_manager.py:35-37: the listed names that contain the
      pattern, in listing order. */
  function Matches(listing: seq<string>, pat: string): (files: seq<string>)
    ensures forall f :: f in files <==> f in listing && Contains(f, pat)
  {
    if listing == [] then []
    else
      var last := listing[|listing| - 1];
      assert listing == listing[..|listing| - 1] + [last];
      Matches(listing[..|listing| - 1], pat) + if Contains(last, pat) then [last] else []
  }

  /** `sorted(files)[-1]`: the greatest name in Python's string order. */
  function MaxLex(files: seq<string>): (m: string)
    requires files != []
    ensures m in files
    ensures forall f :: f in files ==> LexLe(f, m)
  {
    if |files| == 1 then
      LexReflexive(files[0]);
      files[0]
    else
      var init, last := files[..|files| - 1], files[|files| - 1];
      assert files == init + [last];
      var best := MaxLex(init);
      LexTotal(best, last);
      if !LexLe(last, best) then
        forall f | f in init ensures LexLe(f, last) {
          LexTransitive(f, best, last);
        }
        LexReflexive(last);
        last
      else best
  }

  /** The name `get_latest_file` picks, if any: `None` exactly when no listed
      name contains the pattern, otherwise a listed name that contains it and
      is greater than or equal to every other such name. */
  function LatestMatch(listing: seq<string>, pat: string): (r: Option<string>)
    ensures r == None <==> forall f :: f in listing ==> !Contains(f, pat)
    ensures r.Some? ==> r.value in listing && Contains(r.value, pat)
    ensures r.Some? ==> forall f :: f in listing && Contains(f, pat) ==> LexLe(f, r.value)
  {
    var files := Matches(listing, pat);
    if files == [] then None else Some(MaxLex(files))
  }

  /** The shape of `create_identifier`'s `%Y%m%d_%H%M%S` (file_manager.py:12)
      for four-digit years: eight digits, `_`, six digits. */
  predicate StampShaped(id: string) {
    |id| == 15 && id[8] == '_' && AllDigits(id[..8]) && AllDigits(id[9..])
  }

  class FileManager {
    const tempDir: string

    /** `__init__`: files live under the relative directory `temp`. */
    constructor ()
      ensures tempDir == "temp"
    {
      tempDir := "temp";
    }

    /** `get_file_path`: the step's file name under `tempDir`. When no part
        holds a `/`, the path's base name is exactly that file name. */
    function GetFilePath(identifier: string, step: string, fileType: string): (p: string)
      ensures '/' !in identifier && tempDir != [] && tempDir[|tempDir| - 1] != '/' ==>
        p == tempDir + "/" + FileName(identifier, step, fileType)
      ensures '/' !in identifier && '/' !in step && '/' !in fileType ==>
        Basename(p) == FileName(identifier, step, fileType)
    {
      var name := FileName(identifier, step, fileType);
      FileNameBasename(tempDir, identifier, step, fileType);
      PathJoin(tempDir, name)
    }

    /** `get_latest_file`, with the directory's existence and its listing
        given: the loop collects the names containing `_{step}_{file_type}`
        and the greatest of them, joined to `tempDir`, is the answer. */
    method GetLatestFile(dirExists: bool, listing: seq<string>, step: string, fileType: string)
      returns (r: Option<string>)
      ensures !dirExists ==> r == None
      ensures dirExists ==> (r == None <==> LatestMatch(listing, Pattern(step, fileType)) == None)
      ensures r.Some? ==> r.value == PathJoin(tempDir, LatestMatch(listing, Pattern(step, fileType)).value)
    {
      if !dirExists {
        return None;
      }
      var pat := Pattern(step, fileType);
      var files: seq<string> := [];
      var i := 0;
      while i < |listing|
        invariant 0 <= i <= |listing|
        invariant files == Matches(listing[..i], pat)
      {
        assert listing[..i + 1][..i] == listing[..i];
        if Contains(listing[i], pat) {
          files := files + [listing[i]];
        }
        i := i + 1;
      }
      assert listing[..i] == listing;
      if files == [] {
        return None;
      }
      var latest := files[0];
      var k := 1;
      while k < |files|
        invariant 1 <= k <= |files|
        invariant latest == MaxLex(files[..k])
      {
        assert files[..k + 1][..k] == files[..k];
        if !LexLe(files[k], latest) {
          latest := files[k];
        }
        k := k + 1;
      }
      assert files[..k] == files;
      return Some(PathJoin(tempDir, latest));
    }

    /** `get_identifier_from_file`: `None` for an empty path, otherwise the
        base name's part before its first `_`. */
    function GetIdentifierFromFile(filepath: string): (r: Option<string>)
      ensures r == None <==> filepath == ""
      ensures r.Some? ==> '_' !in r.value && r.value <= Basename(filepath)
      ensures r.Some? ==> r.value == Basename(filepath) || Basename(filepath)[|r.value|] == '_'
    {
      if filepath == "" then None else Some(FirstField(Basename(filepath)))
    }
  }

  /** A file name made for some step and type is among the names
      `get_latest_file` considers for that step and type. */
  lemma GeneratedNameMatches(identifier: string, step: string, fileType: string)
    ensures Contains(FileName(identifier, step, fileType), Pattern(step, fileType))
  {
    assert FileName(identifier, step, fileType) == identifier + Pattern(step, fileType);
    ContainsSuffix(identifier, Pattern(step, fileType));
  }

  /** If such a name is listed, a file is found, and it is no smaller than
      that name. */
  lemma GeneratedNameConsidered(listing: seq<string>, identifier: string, step: string, fileType: string)
    requires FileName(identifier, step, fileType) in listing
    ensures LatestMatch(listing, Pattern(step, fileType)).Some?
    ensures LexLe(FileName(identifier, step, fileType), LatestMatch(listing, Pattern(step, fileType)).value)
  {
    GeneratedNameMatches(identifier, step, fileType);
  }

  /** The "newest" claim of file_manager.py:42-43: when the matching names
      are exactly the step's files for identifiers that are digit strings of
      one length, the name picked is that of the numerically greatest
      identifier. */
  lemma LatestHasGreatestIdentifier(listing: seq<string>, ids: seq<string>, step: string, fileType: string)
    requires ids != []
    requires forall i :: 0 <= i < |ids| ==> AllDigits(ids[i]) && |ids[i]| == |ids[0]|
    requires forall i :: 0 <= i < |ids| ==> FileName(ids[i], step, fileType) in listing
    requires forall f :: f in listing && Contains(f, Pattern(step, fileType)) ==>
      exists i :: 0 <= i < |ids| && f == FileName(ids[i], step, fileType)
    ensures exists i :: (0 <= i < |ids|
      && LatestMatch(listing, Pattern(step, fileType)) == Some(FileName(ids[i], step, fileType))
      && forall j :: 0 <= j < |ids| ==> Value(ids[j]) <= Value(ids[i]))
  {
    var pat := Pattern(step, fileType);
    GeneratedNameConsidered(listing, ids[0], step, fileType);
    var m := LatestMatch(listing, pat).value;
    var i :| 0 <= i < |ids| && m == FileName(ids[i], step, fileType);
    forall j | 0 <= j < |ids| ensures Value(ids[j]) <= Value(ids[i]) {
      GeneratedNameMatches(ids[j], step, fileType);
      assert LexLe(FileName(ids[j], step, fileType), m);
      assert FileName(ids[j], step, fileType) == ids[j] + pat;
      assert m == ids[i] + pat;
      if ids[j] != ids[i] {
        LexSameLengthHead(ids[j], pat, ids[i], pat);
      } else {
        LexReflexive(ids[j]);
      }
      LexDigitsNumeric(ids[j], ids[i]);
    }
  }

  /** For identifiers without `_` (and names without `/`), reading the
      identifier back from a generated path gives the identifier. */
  lemma IdentifierRoundTrip(fm: FileManager, identifier: string, step: string, fileType: string)
    requires '_' !in identifier && '/' !in identifier && '/' !in step && '/' !in fileType
    ensures fm.GetIdentifierFromFile(fm.GetFilePath(identifier, step, fileType)) == Some(identifier)
  {
    var name, rest := FileName(identifier, step, fileType), step + "_" + fileType;
    assert name == identifier + "_" + rest;
    FirstFieldBeforeUnderscore(identifier, rest);
    FileNameBasename(fm.tempDir, identifier, step, fileType);
    var path := fm.GetFilePath(identifier, step, fileType);
    assert path == PathJoin(fm.tempDir, name);
    assert Basename(path) == name;
    assert |path| >= |name| > 0;
  }

  lemma {:induction false} FirstFieldBeforeUnderscore(a: string, rest: string)
    requires '_' !in a
    ensures FirstField(a + "_" + rest) == a
  {
    if a != [] {
      assert (a + "_" + rest)[1..] == a[1..] + "_" + rest;
      FirstFieldBeforeUnderscore(a[1..], rest);
    } else {
      assert (a + "_" + rest)[0] == '_';
    }
  }

  /** What the source does with the identifiers it makes: an identifier of
      the `create_identifier` shape contains `_`, so reading it back from a
      generated path yields only its date part. */
  lemma StampIdentifierTruncated(fm: FileManager, identifier: string, step: string, fileType: string)
    requires StampShaped(identifier) && '/' !in step && '/' !in fileType
    ensures fm.GetIdentifierFromFile(fm.GetFilePath(identifier, step, fileType)) == Some(identifier[..8])
    ensures identifier[..8] != identifier
  {
    NoSlashInStamp(identifier);
    var name := FileName(identifier, step, fileType);
    assert name == identifier[..8] + "_" + (identifier[9..] + "_" + step + "_" + fileType);
    NoUnderscoreInDigits(identifier[..8]);
    FirstFieldBeforeUnderscore(identifier[..8], identifier[9..] + "_" + step + "_" + fileType);
  }

  /** One concrete case: the audio archive of session `20250512_152332`
      (app.py:159) is read back as session `20250512`. */
  lemma StampIdentifierExample(fm: FileManager)
    ensures fm.GetIdentifierFromFile(fm.GetFilePath("20250512_152332", "step3", "audio.zip")) == Some("20250512")
  {
    var id := "20250512_152332";
    assert id[..8] == "20250512" && id[9..] == "152332";
    assert AllDigits(id[..8]) by {
      forall i | 0 <= i < 8 ensures IsDigit(id[..8][i]) {
      }
    }
    assert AllDigits(id[9..]) by {
      forall i | 0 <= i < 6 ensures IsDigit(id[9..][i]) {
      }
    }
    assert '/' !in "step3" && '/' !in "audio.zip";
    StampIdentifierTruncated(fm, id, "step3", "audio.zip");
  }

  lemma NoUnderscoreInDigits(s: string)
    requires AllDigits(s)
    ensures '_' !in s
  {
    forall i | 0 <= i < |s| ensures s[i] != '_' {
      assert IsDigit(s[i]);
    }
  }

  lemma NoSlashInStamp(id: string)
    requires StampShaped(id)
    ensures '/' !in id
  {
    forall i | 0 <= i < |id| ensures id[i] != '/' {
      if i < 8 {
        assert IsDigit(id[..8][i]);
      } else if i > 8 {
        assert IsDigit(id[9..][i - 9]);
      }
    }
  }

  /** The two `_`-separated fields a stamp identifier spans. */
  function FirstTwoFields(s: string): (f: string)
    ensures f <= s
  {
    var first := FirstField(s);
    if first == s then first else first + "_" + FirstField(s[|first| + 1..])
  }

  /** The identifier read back as `create_identifier` writes it: the base
      name's part before its second `_`. */
  function GetStampFromFile(filepath: string): (r: Option<string>)
    ensures r == None <==> filepath == ""
    ensures r.Some? ==> r.value <= Basename(filepath)
  {
    if filepath == "" then None else Some(FirstTwoFields(Basename(filepath)))
  }

  /** The corrected reading recovers every stamp identifier from any path
      the file manager makes with it. */
  lemma StampRoundTrip(fm: FileManager, identifier: string, step: string, fileType: string)
    requires StampShaped(identifier) && '/' !in step && '/' !in fileType
    ensures GetStampFromFile(fm.GetFilePath(identifier, step, fileType)) == Some(identifier)
  {
    NoSlashInStamp(identifier);
    var date, time := identifier[..8], identifier[9..];
    assert identifier == date + "_" + time;
    var name := FileName(identifier, step, fileType);
    var rest := step + "_" + fileType;
    assert name == date + "_" + (time + "_" + rest);
    NoUnderscoreInDigits(date);
    NoUnderscoreInDigits(time);
    FirstFieldBeforeUnderscore(date, time + "_" + rest);
    assert name[|date| + 1..] == time + "_" + rest;
    FirstFieldBeforeUnderscore(time, rest);
  }
}

=== FILE: lex.dfy ===
/** Python's ordering of `str` values: code point by code point, a proper
    prefix before any longer string. `sorted(...)` and `list.sort()` use it. */
module Lex {
  import opened Numerals

  /** `a <= b` on Python strings. */
  predicate LexLe(a: string, b: string) {
    if a == [] then true
    else if b == [] then false
    else if a[0] != b[0] then a[0] < b[0]
    else LexLe(a[1..], b[1..])
  }

  /** Python's definition: `a <= b` when `a` is a prefix of `b`, or at the
      first position where they differ `a` has the smaller code point. */
  lemma {:induction false} LexLeIff(a: string, b: string)
    ensures LexLe(a, b) <==>
      a <= b || exists k :: 0 <= k < |a| && k < |b| && a[..k] == b[..k] && a[k] < b[k]
  {
    if a == [] || b == [] {
    } else if a[0] != b[0] {
      if a[0] < b[0] {
        assert a[..0] == b[..0];
      } else {
        forall k | 0 < k <= |a| && k <= |b| ensures a[..k] != b[..k] {
          assert a[..k][0] == a[0] && b[..k][0] == b[0];
        }
      }
    } else {
      var ta, tb := a[1..], b[1..];
      LexLeIff(ta, tb);
      assert a == [a[0]] + ta && b == [b[0]] + tb;
      assert a <= b <==> ta <= tb;
      forall k | 0 <= k < |ta| && k < |tb| && ta[..k] == tb[..k] && ta[k] < tb[k]
        ensures a[..k + 1] == b[..k + 1] && a[k + 1] < b[k + 1]
      {
        assert a[..k + 1] == [a[0]] + ta[..k];
        assert b[..k + 1] == [b[0]] + tb[..k];
      }
      forall k | 0 <= k < |a| && k < |b| && a[..k] == b[..k] && a[k] < b[k]
        ensures 1 <= k && ta[..k - 1] == tb[..k - 1] && ta[k - 1] < tb[k - 1]
      {
        assert ta[..k - 1] == a[..k][1..] && tb[..k - 1] == b[..k][1..];
      }
    }
  }

  lemma {:induction false} LexReflexive(a: string)
    ensures LexLe(a, a)
  {
    if a != [] {
      LexReflexive(a[1..]);
    }
  }

  lemma {:induction false} LexTotal(a: string, b: string)
    ensures LexLe(a, b) || LexLe(b, a)
  {
    if a != [] && b != [] && a[0] == b[0] {
      LexTotal(a[1..], b[1..]);
    }
  }

  lemma {:induction false} LexAntisymmetric(a: string, b: string)
    requires LexLe(a, b) && LexLe(b, a)
    ensures a == b
  {
    if a != [] && b != [] {
      LexAntisymmetric(a[1..], b[1..]);
      assert a == [a[0]] + a[1..];
      assert b == [b[0]] + b[1..];
    }
  }

  lemma {:induction false} LexTransitive(a: string, b: string, c: string)
    requires LexLe(a, b) && LexLe(b, c)
    ensures LexLe(a, c)
  {
    if a != [] && b != [] && c != [] && a[0] == b[0] == c[0] {
      LexTransitive(a[1..], b[1..], c[1..]);
    }
  }

  /** A shared leading part does not change the order: sorting full paths
      under one directory orders them as their file names. */
  lemma {:induction false} LexCommonPrefix(p: string, a: string, b: string)
    ensures LexLe(p + a, p + b) <==> LexLe(a, b)
  {
    if p != [] {
      assert (p + a)[1..] == p[1..] + a;
      assert (p + b)[1..] == p[1..] + b;
      LexCommonPrefix(p[1..], a, b);
    } else {
      assert p + a == a && p + b == b;
    }
  }

  /** Two strings whose leading parts have equal length and differ are
      ordered by those leading parts alone, whatever follows. */
  lemma {:induction false} LexSameLengthHead(a: string, x: string, b: string, y: string)
    requires |a| == |b| && a != b
    ensures LexLe(a + x, b + y) <==> LexLe(a, b)
  {
    assert a != [] && b != [];
    if a[0] == b[0] {
      assert a[1..] != b[1..] by {
        assert a == [a[0]] + a[1..];
        assert b == [b[0]] + b[1..];
      }
      assert (a + x)[1..] == a[1..] + x;
      assert (b + y)[1..] == b[1..] + y;
      LexSameLengthHead(a[1..], x, b[1..], y);
    }
  }

  /** On digit strings of one length, the string order is the numeric order. */
  lemma {:induction false} LexDigitsNumeric(a: string, b: string)
    requires AllDigits(a) && AllDigits(b) && |a| == |b|
    ensures LexLe(a, b) <==> Value(a) <= Value(b)
  {
    if a != [] {
      ValueFront(a);
      ValueFront(b);
      ValueBound(a[1..]);
      ValueBound(b[1..]);
      var p := Pow10(|a| - 1);
      var da, db := DigitValue(a[0]), DigitValue(b[0]);
      if a[0] == b[0] {
        LexDigitsNumeric(a[1..], b[1..]);
      } else if a[0] < b[0] {
        assert da + 1 <= db;
        MoreWeight(da, db, p, Value(a[1..]), Value(b[1..]));
      } else {
        assert db + 1 <= da;
        MoreWeight(db, da, p, Value(b[1..]), Value(a[1..]));
      }
    }
  }

  lemma MoreWeight(d: nat, e: nat, p: nat, v: nat, w: nat)
    requires d + 1 <= e && v < p
    ensures d * p + v < e * p + w
  {
    assert (d + 1) * p <= e * p;
  }
}

=== FILE: numerals.dfy ===
/** Decimal digit strings: the building blocks of timestamps, cue indices and
    timestamp identifiers. */
module Numerals {

  function Pow10(k: nat): (p: nat)
    ensures p >= 1
  {
    if k == 0 then 1 else 10 * Pow10(k - 1)
  }

  predicate IsDigit(c: char) {
    '0' <= c <= '9'
  }

  predicate AllDigits(s: string) {
    forall i :: 0 <= i < |s| ==> IsDigit(s[i])
  }

  function DigitValue(c: char): (d: nat)
    requires IsDigit(c)
    ensures d < 10
  {
    c as int - '0' as int
  }

  function DigitChar(d: nat): (c: char)
    requires d < 10
    ensures IsDigit(c) && DigitValue(c) == d
  {
    ('0' as int + d) as char
  }

  /** The number a digit string denotes (leading zeros allowed). */
  function Value(s: string): nat
    requires AllDigits(s)
  {
    if s == [] then 0 else 10 * Value(s[..|s| - 1]) + DigitValue(s[|s| - 1])
  }

  /** Python's `str(n)` for a non-negative integer: the canonical decimal
      form, which reads back as `n` and has no leading zero. */
  function Decimal(n: nat): (s: string)
    ensures AllDigits(s) && 1 <= |s|
    ensures Value(s) == n
    ensures s[0] == '0' ==> n == 0
  {
    if n < 10 then [DigitChar(n)]
    else
      var init := Decimal(n / 10);
      var s := init + [DigitChar(n % 10)];
      assert s[..|s| - 1] == init;
      s
  }

  /** The only canonical decimal that starts with `0` is `0` itself. */
  lemma DecimalCanonical(n: nat)
    ensures Decimal(n)[0] == '0' ==> Decimal(n) == "0"
  {
    if Decimal(n)[0] == '0' {
      assert n == 0;
    }
  }

  /** Zero padding to a minimum width, as the `02d`/`03d` format specs do. */
  function PadLeft(s: string, width: nat): (r: string)
    requires AllDigits(s)
    ensures |r| == if |s| < width then width else |s|
    ensures AllDigits(r) && Value(r) == Value(s)
    decreases width - |s|
  {
    if |s| >= width then s
    else
      ValueLeadingZero(s);
      PadLeft(['0'] + s, width)
  }

  lemma {:induction false} ValueLeadingZero(s: string)
    requires AllDigits(s)
    ensures AllDigits(['0'] + s) && Value(['0'] + s) == Value(s)
  {
    if s != [] {
      var t := ['0'] + s;
      assert t[..|t| - 1] == ['0'] + s[..|s| - 1];
      ValueLeadingZero(s[..|s| - 1]);
    }
  }

  /** A number below 10^k needs at most k digits. */
  lemma {:induction false} DecimalWidth(n: nat, k: nat)
    requires 1 <= k && n < Pow10(k)
    ensures |Decimal(n)| <= k
  {
    if n >= 10 {
      assert k >= 2;
      DecimalWidth(n / 10, k - 1);
    }
  }

  /** A string of k digits denotes a number below 10^k. */
  lemma {:induction false} ValueBound(s: string)
    requires AllDigits(s)
    ensures Value(s) < Pow10(|s|)
  {
    if s != [] {
      ValueBound(s[..|s| - 1]);
    }
  }

  /** Reading a digit string from the front: the leading digit weighs 10^(k-1). */
  lemma {:induction false} ValueFront(s: string)
    requires AllDigits(s) && |s| > 0
    ensures Value(s) == DigitValue(s[0]) * Pow10(|s| - 1) + Value(s[1..])
  {
    if |s| > 1 {
      var init := s[..|s| - 1];
      ValueFront(init);
      assert init[1..] == s[1..][..|s| - 2];
      var d, p, last := DigitValue(s[0]), Pow10(|s| - 2), DigitValue(s[|s| - 1]);
      assert Value(s[1..]) == 10 * Value(init[1..]) + last;
      ShiftDigit(d, p, Value(init[1..]), last);
    }
  }

  lemma ShiftDigit(d: nat, p: nat, w: nat, last: nat)
    ensures 10 * (d * p + w) + last == d * (10 * p) + (10 * w + last)
  {
  }
}

=== FILE: options.dfy ===
/** Optional values, for lookups that may find nothing (Python's `None`). */
module Options {
  datatype Option<+T> = None | Some(value: T)
}

=== FILE: srt_track.dfy ===
/** Subtitle entries and their SubRip rendering. */
module SrtTrack {
  import opened Numerals
  import opened TimeCodec
  import opened Options

  /** One entry as `parse_srt` returns it for a single clip: times in
      milliseconds relative to the start of that clip. */
  datatype Entry = Entry(start: nat, end: nat, text: string)

  /** One entry of the combined track: its 1-based index and its times on the
      global timeline. */
  datatype Cue = Cue(index: nat, start: nat, end: nat, text: string)

  /** The SubRip block of one cue: index line, `start --> end` line, the text
      and a blank line. */
  function Block(c: Cue): (b: string)
    ensures |b| > 0
  {
    Decimal(c.index) + "\n" + FormatTimestamp(c.start) + " --> " + FormatTimestamp(c.end) + "\n"
      + c.text + "\n\n"
  }

  /** A block is the index line, the timing line and the text, followed by
      a blank line; the index and both times read back as the cue's. */
  lemma BlockFields(c: Cue)
    ensures var index, start, end := Decimal(c.index), FormatTimestamp(c.start), FormatTimestamp(c.end);
      && Block(c) == index + "\n" + start + " --> " + end + "\n" + c.text + "\n\n"
      && Value(index) == c.index
      && ParseTimestamp(start) == Some(c.start) && ParseTimestamp(end) == Some(c.end)
  {
    TimestampRoundTrip(c.start);
    TimestampRoundTrip(c.end);
  }

  /** The strings of `parts`, one after the other. */
  function Concat(parts: seq<string>): string {
    if parts == [] then "" else Concat(parts[..|parts| - 1]) + parts[|parts| - 1]
  }

  lemma {:induction false} ConcatAppend(p: seq<string>, q: seq<string>)
    ensures Concat(p + q) == Concat(p) + Concat(q)
  {
    if q == [] {
      assert p + q == p;
    } else {
      var pq, init := p + q, q[..|q| - 1];
      assert pq[..|pq| - 1] == p + init;
      assert pq[|pq| - 1] == q[|q| - 1];
      ConcatAppend(p, init);
    }
  }

  function Blocks(cues: seq<Cue>): seq<string>
  {
    seq(|cues|, i requires 0 <= i < |cues| => Block(cues[i]))
  }

  /** The combined SubRip text: the blocks of all cues, in order. */
  function Render(cues: seq<Cue>): string {
    Concat(Blocks(cues))
  }

  /** The rendered text is empty exactly when there is no cue, which is the
      test app.py:270 uses to report that no text was extracted. */
  lemma RenderEmptyIff(cues: seq<Cue>)
    ensures Render(cues) == "" <==> cues == []
  {
    if cues != [] {
      var blocks := Blocks(cues);
      var n := |blocks|;
      assert |Concat(blocks)| == |Concat(blocks[..n - 1])| + |blocks[n - 1]|;
    }
  }

  /** Rendering distributes over concatenation: the text of a combined track
      is the text of its parts, one after the other. */
  lemma RenderAppend(a: seq<Cue>, b: seq<Cue>)
    ensures Render(a + b) == Render(a) + Render(b)
  {
    var ab, ba := Blocks(a + b), Blocks(a) + Blocks(b);
    forall i | 0 <= i < |a + b| ensures ab[i] == ba[i] {
      if i < |a| {
        assert (a + b)[i] == a[i];
      } else {
        assert (a + b)[i] == b[i - |a|];
      }
    }
    assert ab == ba;
    ConcatAppend(Blocks(a), Blocks(b));
  }

  /** The rendering loop of app.py:255-259 (and the same block shape at
      app.py:1190-1192): string accumulation, one block per cue. */
  method RenderTrack(cues: seq<Cue>) returns (text: string)
    ensures text == Render(cues)
  {
    text := "";
    var i := 0;
    while i < |cues|
      invariant 0 <= i <= |cues|
      invariant text == Render(cues[..i])
    {
      var blocks := Blocks(cues[..i + 1]);
      assert blocks[..i] == Blocks(cues[..i]);
      assert Concat(blocks) == Concat(blocks[..i]) + blocks[i];
      text := text + Block(cues[i]);
      i := i + 1;
    }
    assert cues[..i] == cues;
  }
}

=== FILE: stitching.dfy ===
/** `generate_subtitle_only` (app.py:176-276): take each clip's transcription
    result (an input carried by `Clip`), shift the clip's entries by a running
    millisecond offset, renumber them from a running index, and render the
    combined track as SubRip text. */
module Stitching {
  import opened SrtTrack
  import opened AudioFiles

  /** What the loop has built so far: the combined entries, `time_offset` and
      `current_index`. */
  datatype Stitched = Stitched(cues: seq<Cue>, offset: nat, next: nat)

  /** The state before the first clip (app.py:222-224). */
  const Initial := Stitched([], 0, 1)

  /** The entries of one clip moved `offset` milliseconds later and numbered
      from `first`. */
  function Shift(seg: seq<Entry>, offset: nat, first: nat): seq<Cue>
  {
    seq(|seg|, k requires 0 <= k < |seg| => Cue(first + k, seg[k].start + offset, seg[k].end + offset, seg[k].text))
  }

  lemma ShiftSnoc(seg: seq<Entry>, j: nat, offset: nat, first: nat)
    requires j < |seg|
    ensures Shift(seg[..j + 1], offset, first)
      == Shift(seg[..j], offset, first) + [Cue(first + j, seg[j].start + offset, seg[j].end + offset, seg[j].text)]
  {
  }

  /** One pass of the outer loop: an empty clip is skipped; otherwise its
      entries are appended, shifted and numbered, and the offset becomes the
      shifted end of its last entry. */
  function Step(s: Stitched, seg: seq<Entry>): Stitched {
    if seg == [] then s
    else Stitched(s.cues + Shift(seg, s.offset, s.next), s.offset + seg[|seg| - 1].end, s.next + |seg|)
  }

  /** One pass appends exactly the clip's entries, advances the index by
      their number, and never moves the offset back. */
  lemma StepGrows(s: Stitched, seg: seq<Entry>)
    ensures var r := Step(s, seg);
      && |r.cues| == |s.cues| + |seg| && r.next == s.next + |seg|
      && r.cues[..|s.cues|] == s.cues
      && r.offset >= s.offset
  {
  }

  /** The state after the loop has taken the clips' entries in order. */
  function StitchAll(segs: seq<seq<Entry>>): Stitched {
    if segs == [] then Initial else Step(StitchAll(segs[..|segs| - 1]), segs[|segs| - 1])
  }

  lemma StitchAllSnoc(segs: seq<seq<Entry>>, seg: seq<Entry>)
    ensures StitchAll(segs + [seg]) == Step(StitchAll(segs), seg)
  {
    assert (segs + [seg])[..|segs|] == segs;
  }

  /** All entries of all clips, clip after clip. */
  function Flatten(segs: seq<seq<Entry>>): seq<Entry> {
    if segs == [] then [] else Flatten(segs[..|segs| - 1]) + segs[|segs| - 1]
  }

  /** The relative end of the last entry of every non-empty clip, summed. */
  function SumLastEnds(segs: seq<seq<Entry>>): nat {
    if segs == [] then 0
    else
      var last := segs[|segs| - 1];
      SumLastEnds(segs[..|segs| - 1]) + if last == [] then 0 else last[|last| - 1].end
  }

  /** The clips that have entries, in order. */
  function NonEmpty(segs: seq<seq<Entry>>): seq<seq<Entry>> {
    if segs == [] then []
    else
      var last := segs[|segs| - 1];
      NonEmpty(segs[..|segs| - 1]) + if last == [] then [] else [last]
  }

  /** The combined entries are numbered 1..N in the order they were appended,
      and the running index is always one past the last number given. */
  lemma {:induction false} StitchNumbering(segs: seq<seq<Entry>>)
    ensures var s := StitchAll(segs);
      && s.next == |s.cues| + 1
      && forall k :: 0 <= k < |s.cues| ==> s.cues[k].index == k + 1
  {
    if segs != [] {
      StitchNumbering(segs[..|segs| - 1]);
    }
  }

  /** Every combined entry is an entry of some clip, in clip order and in
      order within each clip: it keeps its text and its duration, and its
      start and end move by the same non-negative offset. The combined length
      is the total number of entries of all clips. */
  lemma {:induction false} StitchKeepsEntries(segs: seq<seq<Entry>>)
    ensures var s, flat := StitchAll(segs), Flatten(segs);
      && |s.cues| == |flat|
      && forall k :: 0 <= k < |flat| ==>
        && s.cues[k].text == flat[k].text
        && s.cues[k].start >= flat[k].start
        && s.cues[k].start - flat[k].start == s.cues[k].end - flat[k].end
  {
    if segs != [] {
      var init, last := segs[..|segs| - 1], segs[|segs| - 1];
      StitchKeepsEntries(init);
      var prev := StitchAll(init);
      if last != [] {
        var s, flat := StitchAll(segs), Flatten(segs);
        forall k | |prev.cues| <= k < |flat|
          ensures s.cues[k].text == flat[k].text
          ensures s.cues[k].start >= flat[k].start
          ensures s.cues[k].start - flat[k].start == s.cues[k].end - flat[k].end
        {
          assert s.cues[k] == Shift(last, prev.offset, prev.next)[k - |prev.cues|];
          assert flat[k] == last[k - |prev.cues|];
        }
      }
    }
  }

  /** The offset after the loop is the sum, over the non-empty clips, of the
      relative end of each clip's last entry: the last entry, not the entry
      that ends latest. */
  lemma {:induction false} StitchOffset(segs: seq<seq<Entry>>)
    ensures StitchAll(segs).offset == SumLastEnds(segs)
  {
    if segs != [] {
      StitchOffset(segs[..|segs| - 1]);
    }
  }

  /** Entry `j` of clip `i` becomes the combined entry right after the
      entries of the earlier clips: numbered by its place, with start and end
      moved by exactly the offset the earlier clips left. */
  lemma {:induction false} StitchShiftExact(segs: seq<seq<Entry>>, i: nat, j: nat)
    requires i < |segs| && j < |segs[i]|
    ensures var k := |Flatten(segs[..i])| + j;
      && k < |StitchAll(segs).cues|
      && StitchAll(segs).cues[k]
        == Cue(k + 1, segs[i][j].start + SumLastEnds(segs[..i]), segs[i][j].end + SumLastEnds(segs[..i]), segs[i][j].text)
  {
    var init, last := segs[..|segs| - 1], segs[|segs| - 1];
    if i < |segs| - 1 {
      assert init[..i] == segs[..i] && init[i] == segs[i];
      StitchShiftExact(init, i, j);
      StitchSegmentAnchored(init, last);
      assert init + [last] == segs;
    } else {
      assert segs[..i] == init;
      var prev := StitchAll(init);
      StitchKeepsEntries(init);
      StitchOffset(init);
      StitchNumbering(init);
      assert StitchAll(segs).cues == prev.cues + Shift(last, prev.offset, prev.next);
    }
  }

  /** A clip with no entries contributes nothing: dropping every such clip
      leaves the entries, the offset and the index as they were. */
  lemma {:induction false} StitchSkipsEmpty(segs: seq<seq<Entry>>)
    ensures StitchAll(NonEmpty(segs)) == StitchAll(segs)
  {
    if segs != [] {
      var init, last := segs[..|segs| - 1], segs[|segs| - 1];
      StitchSkipsEmpty(init);
      if last != [] {
        StitchAllSnoc(NonEmpty(init), last);
      } else {
        assert NonEmpty(segs) == NonEmpty(init);
      }
    }
  }

  /** What one more clip does to the state: nothing when it has no entries;
      otherwise its entries come after all earlier ones, start no earlier than
      the offset the earlier clips left, and the new offset is that offset
      plus the relative end of the clip's last entry. */
  lemma StitchSegmentAnchored(segs: seq<seq<Entry>>, seg: seq<Entry>)
    ensures var before, after := StitchAll(segs), StitchAll(segs + [seg]);
      && (seg == [] ==> after == before)
      && (seg != [] ==> after.offset == before.offset + seg[|seg| - 1].end)
      && |after.cues| == |before.cues| + |seg|
      && after.cues[..|before.cues|] == before.cues
      && forall k :: |before.cues| <= k < |after.cues| ==> after.cues[k].start >= before.offset
  {
    StitchAllSnoc(segs, seg);
  }

  /** The entries of one clip as a recogniser produces them: each starts no
      later than it ends, and they come in order of start time. */
  predicate WellFormedSegment(seg: seq<Entry>) {
    && (forall i :: 0 <= i < |seg| ==> seg[i].start <= seg[i].end)
    && (forall i, j :: 0 <= i < j < |seg| ==> seg[i].start <= seg[j].start)
  }

  predicate SortedByStart(cues: seq<Cue>) {
    forall i, j :: 0 <= i < j < |cues| ==> cues[i].start <= cues[j].start
  }

  /** The facts StitchMonotone carries from clip to clip. */
  predicate Monotone(s: Stitched) {
    && SortedByStart(s.cues)
    && (forall k :: 0 <= k < |s.cues| ==> s.cues[k].start <= s.cues[k].end)
    && (forall k :: 0 <= k < |s.cues| ==> s.cues[k].start <= s.offset)
  }

  /** A well-formed clip, shifted: ordered by start, each entry starting no
      later than it ends, and all of them between the offset and the offset
      plus the last entry's end. */
  lemma ShiftBounds(seg: seq<Entry>, offset: nat, first: nat)
    requires WellFormedSegment(seg) && seg != []
    ensures var added := Shift(seg, offset, first);
      && SortedByStart(added)
      && forall k :: 0 <= k < |added| ==>
        added[k].start <= added[k].end && offset <= added[k].start <= offset + seg[|seg| - 1].end
  {
    var added, m := Shift(seg, offset, first), |seg|;
    forall k | 0 <= k < m
      ensures added[k].start <= added[k].end && offset <= added[k].start <= offset + seg[m - 1].end
    {
      assert seg[k].start <= seg[m - 1].start <= seg[m - 1].end;
    }
  }

  /** Two start-ordered runs separated by `bound` concatenate into one. */
  lemma SortedAppend(a: seq<Cue>, b: seq<Cue>, bound: nat)
    requires SortedByStart(a) && SortedByStart(b)
    requires forall k :: 0 <= k < |a| ==> a[k].start <= bound
    requires forall k :: 0 <= k < |b| ==> bound <= b[k].start
    ensures SortedByStart(a + b)
  {
    var ab := a + b;
    forall i, j | 0 <= i < j < |ab| ensures ab[i].start <= ab[j].start {
      if i >= |a| {
        assert ab[i] == b[i - |a|] && ab[j] == b[j - |a|];
      } else if j >= |a| {
        assert ab[i] == a[i] && ab[j] == b[j - |a|];
      } else {
        assert ab[i] == a[i] && ab[j] == a[j];
      }
    }
  }

  /** Cues that each start no later than they end and no later than `bound`,
      concatenated, still do. */
  lemma BoundedAppend(a: seq<Cue>, b: seq<Cue>, bound: nat)
    requires forall k :: 0 <= k < |a| ==> a[k].start <= a[k].end && a[k].start <= bound
    requires forall k :: 0 <= k < |b| ==> b[k].start <= b[k].end && b[k].start <= bound
    ensures forall k :: 0 <= k < |a + b| ==> (a + b)[k].start <= (a + b)[k].end && (a + b)[k].start <= bound
  {
    forall k | 0 <= k < |a + b| ensures (a + b)[k].start <= (a + b)[k].end && (a + b)[k].start <= bound {
      if k >= |a| {
        assert (a + b)[k] == b[k - |a|];
      } else {
        assert (a + b)[k] == a[k];
      }
    }
  }

  lemma StepMonotone(prev: Stitched, seg: seq<Entry>)
    requires Monotone(prev) && WellFormedSegment(seg)
    ensures Monotone(Step(prev, seg))
  {
    if seg != [] {
      var s := Step(prev, seg);
      var added := Shift(seg, prev.offset, prev.next);
      assert s.cues == prev.cues + added;
      ShiftBounds(seg, prev.offset, prev.next);
      SortedAppend(prev.cues, added, prev.offset);
      BoundedAppend(prev.cues, added, s.offset);
    }
  }

  /** When every clip is well formed, the combined track is ordered by start
      time, every entry starts no later than it ends, and every entry starts
      no later than the running offset, so the timeline only moves forward
      from clip to clip. */
  lemma {:induction false} StitchMonotone(segs: seq<seq<Entry>>)
    requires forall i :: 0 <= i < |segs| ==> WellFormedSegment(segs[i])
    ensures var s := StitchAll(segs);
      && SortedByStart(s.cues)
      && (forall k :: 0 <= k < |s.cues| ==> s.cues[k].start <= s.cues[k].end)
      && (forall k :: 0 <= k < |s.cues| ==> s.cues[k].start <= s.offset)
  {
    if segs != [] {
      StitchMonotone(segs[..|segs| - 1]);
      StepMonotone(StitchAll(segs[..|segs| - 1]), segs[|segs| - 1]);
    }
  }

  /** Two clips, "hello" over 0-2000 ms and "world" over 0-1500 ms, give
      "hello" at 0-2000 and "world" at 2000-3500, numbered 1 and 2. */
  lemma HelloWorld()
    ensures StitchAll([[Entry(0, 2000, "hello")], [Entry(0, 1500, "world")]]).cues
      == [Cue(1, 0, 2000, "hello"), Cue(2, 2000, 3500, "world")]
  {
    var first, second := [Entry(0, 2000, "hello")], [Entry(0, 1500, "world")];
    StitchAllSnoc([], first);
    StitchAllSnoc([first], second);
    assert [] + [first] == [first];
    assert [first] + [second] == [first, second];
  }

  /** The stitching loop of app.py:222-252, with `current_index` and
      `time_offset` as running state and `all_srt_entries` as the growing list. */
  method StitchSegments(segs: seq<seq<Entry>>) returns (cues: seq<Cue>, offset: nat, index: nat)
    ensures Stitched(cues, offset, index) == StitchAll(segs)
  {
    cues, offset, index := [], 0, 1;
    var i := 0;
    while i < |segs|
      invariant 0 <= i <= |segs|
      invariant Stitched(cues, offset, index) == StitchAll(segs[..i])
    {
      var entries := segs[i];
      ghost var prev := Stitched(cues, offset, index);
      if entries != [] {
        var j := 0;
        while j < |entries|
          invariant 0 <= j <= |entries|
          invariant index == prev.next + j
          invariant cues == prev.cues + Shift(entries[..j], offset, prev.next)
        {
          var e := entries[j];
          ShiftSnoc(entries, j, offset, prev.next);
          cues := cues + [Cue(index, e.start + offset, e.end + offset, e.text)];
          index := index + 1;
          j := j + 1;
        }
        assert entries[..j] == entries;
        assert cues[|cues| - 1] == Shift(entries, offset, prev.next)[|entries| - 1];
        // The last entry appended is the clip's last entry, already shifted.
        offset := cues[|cues| - 1].end;
      }
      assert Stitched(cues, offset, index) == Step(prev, entries);
      assert segs[..i + 1] == segs[..i] + [entries];
      StitchAllSnoc(segs[..i], entries);
      i := i + 1;
    }
    assert segs[..i] == segs;
  }

  /** The request's outcome: a failure message or the combined SubRip text. */
  datatype Outcome = Failure(message: string) | Success(srt: string)

  const NoMp3Message := "未找到任何MP3音頻文件"
  const NoTextMessage := "字幕生成失敗：未能從音頻中提取文字"
  /** The message an exception caught by the outer `except` is reported with
      (app.py:275-276, app.py:489-490), followed by the exception's text. */
  const ErrorPrefix := "字幕生成過程中出錯: "

  /** Every listed name is an `.mp3` clip. Only those are deleted before the
      directory itself is removed (app.py:265-268). */
  predicate AllMp3(clips: seq<Clip>) {
    forall c :: c in clips ==> IsMp3(c.name)
  }

  lemma StitchEmptyIff(segs: seq<seq<Entry>>)
    ensures StitchAll(segs).cues == [] <==> forall i :: 0 <= i < |segs| ==> segs[i] == []
  {
    StitchKeepsEntries(segs);
    FlattenEmptyIff(segs);
  }

  lemma {:induction false} FlattenEmptyIff(segs: seq<seq<Entry>>)
    ensures Flatten(segs) == [] <==> forall i :: 0 <= i < |segs| ==> segs[i] == []
  {
    if segs != [] {
      FlattenEmptyIff(segs[..|segs| - 1]);
    }
  }

  /** `generate_subtitle_only` from the listing of the extracted archive on
      (app.py:212-276). No `.mp3` clip is a failure. Otherwise the clips are
      stitched and rendered; then the `.mp3` files are deleted and the
      directory removed, which raises, and is reported with `rmdirError` (the
      operating system's text), when any other name was listed. Otherwise the
      result is a failure exactly when no clip yielded an entry. */
  method GenerateSubtitleOnly(clips: seq<Clip>, rmdirError: string) returns (r: Outcome)
    ensures Audio(clips) == [] ==> r == Failure(NoMp3Message)
    ensures Audio(clips) != [] && !AllMp3(clips) ==> r == Failure(ErrorPrefix + rmdirError)
    ensures Audio(clips) != [] && AllMp3(clips) ==>
      (r.Failure? <==> forall c :: c in Audio(clips) ==> SegmentOf(c) == [])
    ensures Audio(clips) != [] && AllMp3(clips) && r.Failure? ==> r.message == NoTextMessage
    ensures r.Success? ==> AllMp3(clips) && r.srt == Render(StitchAll(Segments(Audio(clips))).cues)
  {
    var audio := Audio(clips);
    if audio == [] {
      return Failure(NoMp3Message);
    }
    var segs := Segments(audio);
    var cues, _, _ := StitchSegments(segs);
    var combined := RenderTrack(cues);
    RenderEmptyIff(cues);
    StitchEmptyIff(segs);
    SegmentsEmptyIff(audio);
    if !AllMp3(clips) {
      return Failure(ErrorPrefix + rmdirError);
    }
    if combined == "" {
      return Failure(NoTextMessage);
    }
    return Success(combined);
  }
}

=== FILE: time_codec.dfy ===
/** SubRip timestamps: `HH:MM:SS,mmm`, hours zero-padded to at least two
    digits and otherwise unbounded, minutes and seconds to two, milliseconds to
    three. The stitching loop reads every timestamp into milliseconds, adds the
    running offset and writes it back (app.py:240-244); this module is the
    codec that loop relies on, with its exact round trip proved. */
module TimeCodec {
  import opened Options
  import opened Numerals

  const MsPerSecond := 1000
  const SecondsPerMinute := 60
  const MinutesPerHour := 60

  /** `ms_to_time`: milliseconds to `HH:MM:SS,mmm`. */
  function FormatTimestamp(ms: nat): (s: string)
    ensures |s| >= 12
    ensures s[|s| - 10] == ':' && s[|s| - 7] == ':' && s[|s| - 4] == ','
  {
    var seconds := ms / MsPerSecond;
    var minutes := seconds / SecondsPerMinute;
    var hours := minutes / MinutesPerHour;
    DecimalWidth(minutes % MinutesPerHour, 2);
    DecimalWidth(seconds % SecondsPerMinute, 2);
    DecimalWidth(ms % MsPerSecond, 3);
    PadLeft(Decimal(hours), 2) + ":" + PadLeft(Decimal(minutes % MinutesPerHour), 2) + ":"
      + PadLeft(Decimal(seconds % SecondsPerMinute), 2) + "," + PadLeft(Decimal(ms % MsPerSecond), 3)
  }

  /** The millisecond count of the fields `HH`, `MM`, `SS` and `mmm`. */
  function Millis(h: nat, m: nat, sec: nat, f: nat): nat {
    ((h * MinutesPerHour + m) * SecondsPerMinute + sec) * MsPerSecond + f
  }

  /** `time_to_ms`: `HH:MM:SS,mmm` to milliseconds; `None` for text of any
      other shape and for minutes or seconds of 60 or more. */
  function ParseTimestamp(s: string): (r: Option<nat>)
    ensures r.Some? ==> |s| >= 11 && s[|s| - 10] == ':' && s[|s| - 7] == ':' && s[|s| - 4] == ','
  {
    if |s| < 11 then None
    else
      var n := |s|;
      var hh, mm, ss, fff := s[..n - 10], s[n - 9..n - 7], s[n - 6..n - 4], s[n - 3..];
      if s[n - 10] != ':' || s[n - 7] != ':' || s[n - 4] != ',' then None
      else if !(AllDigits(hh) && AllDigits(mm) && AllDigits(ss) && AllDigits(fff)) then None
      else if Value(mm) >= MinutesPerHour || Value(ss) >= SecondsPerMinute then None
      else Some(Millis(Value(hh), Value(mm), Value(ss), Value(fff)))
  }

  lemma MulAtLeast(a: int, d: nat)
    ensures a >= 1 ==> a * d >= d
  {
    if a >= 1 {
      assert a * d == (a - 1) * d + d;
    }
  }

  /** Euclidean division recovers quotient and remainder. */
  lemma DivMod(q: nat, r: nat, d: nat)
    requires r < d
    ensures (q * d + r) / d == q && (q * d + r) % d == r
  {
    var x := q * d + r;
    var k, m := x / d, x % d;
    assert x == k * d + m;
    assert (q - k) * d == m - r;
    MulAtLeast(q - k, d);
    MulAtLeast(k - q, d);
  }

  /** With every field in range, each field can be read back from the
      millisecond count. */
  lemma MillisFields(h: nat, m: nat, sec: nat, f: nat)
    requires m < MinutesPerHour && sec < SecondsPerMinute && f < MsPerSecond
    ensures Millis(h, m, sec, f) % 1000 == f
    ensures Millis(h, m, sec, f) / 1000 % 60 == sec
    ensures Millis(h, m, sec, f) / 60000 % 60 == m
    ensures Millis(h, m, sec, f) / 3600000 == h
  {
    var minutes := h * 60 + m;
    var seconds := minutes * 60 + sec;
    var ms := seconds * 1000 + f;
    DivMod(seconds, f, 1000);
    DivMod(minutes, sec, 60);
    DivMod(h, m, 60);
    assert ms == minutes * 60000 + (sec * 1000 + f);
    DivMod(minutes, sec * 1000 + f, 60000);
    assert ms == h * 3600000 + (m * 60000 + sec * 1000 + f);
    DivMod(h, m * 60000 + sec * 1000 + f, 3600000);
  }

  /** Where `ParseTimestamp` finds the four fields of text assembled from
      them. */
  lemma FieldSlices(s: string, hh: string, mm: string, ss: string, fff: string)
    requires |hh| >= 1 && |mm| == 2 && |ss| == 2 && |fff| == 3
    requires s == hh + ":" + mm + ":" + ss + "," + fff
    ensures |s| >= 11
    ensures s[|s| - 10] == ':' && s[|s| - 7] == ':' && s[|s| - 4] == ','
    ensures s[..|s| - 10] == hh && s[|s| - 9..|s| - 7] == mm
    ensures s[|s| - 6..|s| - 4] == ss && s[|s| - 3..] == fff
  {
  }

  /** Text of the right shape with fields in range is read as their
      millisecond count. */
  lemma ParseAccepts(s: string, hh: string, mm: string, ss: string, fff: string)
    requires AllDigits(hh) && AllDigits(mm) && AllDigits(ss) && AllDigits(fff)
    requires |s| >= 11
    requires s[|s| - 10] == ':' && s[|s| - 7] == ':' && s[|s| - 4] == ','
    requires s[..|s| - 10] == hh && s[|s| - 9..|s| - 7] == mm
    requires s[|s| - 6..|s| - 4] == ss && s[|s| - 3..] == fff
    requires Value(mm) < MinutesPerHour && Value(ss) < SecondsPerMinute
    ensures ParseTimestamp(s) == Some(Millis(Value(hh), Value(mm), Value(ss), Value(fff)))
  {
  }

  /** Text of the right shape with minutes or seconds out of range is
      rejected. */
  lemma ParseRejects(s: string, hh: string, mm: string, ss: string, fff: string)
    requires AllDigits(hh) && AllDigits(mm) && AllDigits(ss) && AllDigits(fff)
    requires |s| >= 11
    requires s[|s| - 10] == ':' && s[|s| - 7] == ':' && s[|s| - 4] == ','
    requires s[..|s| - 10] == hh && s[|s| - 9..|s| - 7] == mm
    requires s[|s| - 6..|s| - 4] == ss && s[|s| - 3..] == fff
    requires Value(mm) >= MinutesPerHour || Value(ss) >= SecondsPerMinute
    ensures ParseTimestamp(s) == None
  {
  }

  /** How `ParseTimestamp` reads text assembled from its four fields. */
  lemma ParseJoined(hh: string, mm: string, ss: string, fff: string)
    requires AllDigits(hh) && AllDigits(mm) && AllDigits(ss) && AllDigits(fff)
    requires |hh| >= 1 && |mm| == 2 && |ss| == 2 && |fff| == 3
    ensures ParseTimestamp(hh + ":" + mm + ":" + ss + "," + fff)
      == if Value(mm) < MinutesPerHour && Value(ss) < SecondsPerMinute
         then Some(Millis(Value(hh), Value(mm), Value(ss), Value(fff))) else None
  {
    var s := hh + ":" + mm + ":" + ss + "," + fff;
    FieldSlices(s, hh, mm, ss, fff);
    if Value(mm) < MinutesPerHour && Value(ss) < SecondsPerMinute {
      ParseAccepts(s, hh, mm, ss, fff);
    } else {
      ParseRejects(s, hh, mm, ss, fff);
    }
  }

  /** Every accepted timestamp has its minutes and seconds below 60, and
      each of its four fields can be read back from the millisecond count. */
  lemma ParseFields(s: string)
    ensures ParseTimestamp(s).Some? ==>
      var n, ms := |s|, ParseTimestamp(s).value;
      var hh, mm, ss, fff := s[..n - 10], s[n - 9..n - 7], s[n - 6..n - 4], s[n - 3..];
      AllDigits(hh) && AllDigits(mm) && AllDigits(ss) && AllDigits(fff)
      && Value(mm) < MinutesPerHour && Value(ss) < SecondsPerMinute
      && ms % 1000 == Value(fff) && ms / 1000 % 60 == Value(ss)
      && ms / 60000 % 60 == Value(mm) && ms / 3600000 == Value(hh)
  {
    if ParseTimestamp(s).Some? {
      var n := |s|;
      var hh, mm, ss, fff := s[..n - 10], s[n - 9..n - 7], s[n - 6..n - 4], s[n - 3..];
      var h, m, sec, f := Value(hh), Value(mm), Value(ss), Value(fff);
      assert ParseTimestamp(s) == Some(Millis(h, m, sec, f));
      assert f < MsPerSecond by {
        ValueBound(fff);
        assert Pow10(3) == 1000;
      }
      MillisFields(h, m, sec, f);
    }
  }

  /** Writing a timestamp and reading it back gives the same millisecond count. */
  lemma {:induction false} TimestampRoundTrip(ms: nat)
    ensures ParseTimestamp(FormatTimestamp(ms)) == Some(ms)
  {
    var seconds := ms / MsPerSecond;
    var minutes := seconds / SecondsPerMinute;
    var hours := minutes / MinutesPerHour;
    DecimalWidth(minutes % MinutesPerHour, 2);
    DecimalWidth(seconds % SecondsPerMinute, 2);
    DecimalWidth(ms % MsPerSecond, 3);
    var hh := PadLeft(Decimal(hours), 2);
    var mm := PadLeft(Decimal(minutes % MinutesPerHour), 2);
    var ss := PadLeft(Decimal(seconds % SecondsPerMinute), 2);
    var fff := PadLeft(Decimal(ms % MsPerSecond), 3);
    assert hh + ":" + mm + ":" + ss + "," + fff == FormatTimestamp(ms);
    ParseJoined(hh, mm, ss, fff);
    assert ms == seconds * 1000 + ms % 1000;
    assert seconds == minutes * 60 + seconds % 60;
    assert minutes == hours * 60 + minutes % 60;
  }

  /** Out-of-range minutes or seconds are rejected, not wrapped. */
  lemma RejectsOutOfRangeFields()
    ensures ParseTimestamp("00:60:00,000") == None
    ensures ParseTimestamp("00:00:60,000") == None
    ensures ParseTimestamp("00:00:02,000") == Some(2000)
  {
    var late, over, two := "00:60:00,000", "00:00:60,000", "00:00:02,000";
    assert late[3..5] == "60" && Value("60") == 60;
    assert over[3..5] == "00" && over[6..8] == "60";
    assert two[..2] == "00" && two[3..5] == "00" && two[6..8] == "02" && two[9..] == "000";
    assert Value("00") == 0 && Value("02") == 2 && Value("000") == 0;
  }
}
